=== FILE: README.md ===
# Financial statement analysis app — Dafny model

A model of the deterministic core of a small Streamlit app (`python.py`) that
reads a two-year balance sheet (line item | prior year | current year),
derives growth rates and shares of total assets, computes the current ratio,
and grounds a Gemini chat on the processed table.

Modules (one concept each):

- `Wrappers` — `Option` and `Result`.
- `Cells` — a cell of a value column (`Blank`, `Number`, `Text`), parsing, and coercion to 0 when parsing fails.
- `Labels` — case folding, substring containment, and "first row whose label contains the pattern".
- `Metrics` — `process_financial_data`: coerced values, growth, shares of the first "TỔNG CỘNG TÀI SẢN" row, the `MissingTotalAssets` failure; a functional definition (`Process`) and a column-by-column method (`ProcessColumns`) proved equal.
- `Liquidity` — the current ratio per year from the first "TÀI SẢN NGẮN HẠN" and "NỢ NGẮN HẠN" rows, "N/A" when either is missing, `Undefined` for a zero liabilities value.
- `Chat` — the session-state entries (`messages`, `chat_client`, `chat_session`, `financial_data_markdown`), the prompt built for a question, the lazily created client and session, error replies, initialisation of the log, a turn, and the reset.
- `App` — one run of the script: `RunAsWritten` as the code stands, `Run` with the two findings corrected.
- `Scenarios` — concrete statements: the three-line example sheet, a lower-case label lookup, and the inputs of the two findings.

Arithmetic is over `real`; the `1e-9` stand-in divisor is `0.000000001`.
Foreign calls are parameters: the provider's behaviour in one turn is a
`Provider` record saying whether creating the client, creating the session and
sending the message return or raise (API error or other error); the secret is
an `Option<string>`; `to_markdown` is a function parameter `markdown` of the run.

## Model

| member | source | states |
|---|---|---|
| Cells.Parse | python.py:25 | a blank cell is not a number, a numeric cell keeps its value, a text cell is read by the decimal parser |
| Cells.ParseNumber | python.py:25 | a text that reads as a number is non-empty; only a leading '-' gives a negative value, and a text starting with '-' never reads as positive |
| Cells.SignNegates | python.py:25 | a leading '-' negates the value of an unsigned decimal and a leading '+' leaves it unchanged |
| Cells.FractionValue | python.py:25 | the digits after a decimal point are worth less than one and never negative |
| Cells.DecimalRoundTrip | python.py:25 | the text "w.f" reads back as the exact decimal (w × 10^\|f\| + f) / 10^\|f\|, e.g. "12.25" as 1225/100 |
| Cells.Coerce | python.py:23-25 | coercion never fails: a parsed cell keeps its value, a blank or unparseable cell becomes 0 |
| Cells.ShowIntRoundTrip | python.py:25 | the decimal text of any integer coerces back to that integer |
| Labels.FoldChar | python.py:33 | ASCII letters fold exactly into a-z; any character stays or moves up by 1 or 32 code points |
| Liquidity.FoldPatterns | python.py:33 | the three patterns, Vietnamese capitals included, fold to "tổng cộng tài sản", "tài sản ngắn hạn" and "nợ ngắn hạn" |
| Labels.Fold | python.py:33 | folding a label keeps its length and folds each character |
| Labels.FoldCharIdempotent | python.py:33 | folding a folded character changes nothing |
| Labels.Matches | python.py:33 | a label matches exactly when it is present and its folded text contains the folded pattern at some offset; a missing label never matches |
| Labels.ContainsIff | python.py:33 | substring containment holds exactly when the pattern occurs at some offset |
| Labels.MatchIgnoresCase | python.py:33 | matching is case-insensitive: folding the label first does not change the result |
| Labels.FindFirst | python.py:38-39 | the lookup returns the first matching row, none before it matches, and `None` exactly when no row matches |
| Labels.FindFirstAppend | python.py:38-39 | rows appended after a match do not change which row is found first |
| Metrics.SafeDivisor | python.py:41-42 | the divisor is never zero; it is the value itself when nonzero and 1e-9 otherwise |
| Metrics.Growth | python.py:28-30 | growth times its guarded base is 100 times the change from prior to current |
| Metrics.GrowthFromZero | python.py:29 | a zero prior value gives a finite growth of current × 10^11 |
| Metrics.GrowthSign | python.py:28-30 | with a positive prior value, growth is positive iff the value rose and zero iff it is unchanged |
| Metrics.Share | python.py:41-45 | a share times the guarded total is 100 times the row's value |
| Metrics.Derive | python.py:28-45 | a derived row keeps its label and values; its growth times its guarded prior value is 100 times its change, and each share times the guarded total of its year is 100 times its value |
| Metrics.Process | python.py:19-47 | fails with `MissingTotalAssets` iff no label contains the total-assets pattern; otherwise same length and order, labels unchanged, coerced values, growth per row, shares against the first total row |
| Metrics.CoerceColumns | python.py:23-25 | both value columns coerced cell by cell, same length |
| Metrics.GrowthColumn | python.py:28-30 | the growth column holds each row's guarded growth |
| Metrics.FindTotal | python.py:33-36 | the index of the first total-assets row, or the table length when there is none |
| Metrics.ShareColumns | python.py:38-45 | the assembled rows are each row derived against the totals of row `k` |
| Metrics.ProcessColumns | python.py:19-47 | the column-at-a-time computation gives exactly the result of `Process`, failure included |
| Metrics.TotalRowShare | python.py:38-45 | the first total-assets row's own share is 100 in each year whose value is nonzero, and 0 otherwise |
| Metrics.RowLocality | python.py:41-45 | a row's output depends only on that row and the two totals, not on any other row or its position |
| Metrics.ProcessAppend | python.py:33-45 | appending rows to a table that already has a total row leaves its processed rows unchanged |
| Liquidity.CurrentRatio | python.py:175-176 | the ratio is undefined exactly when liabilities are zero; otherwise ratio × liabilities = assets |
| Liquidity.LiquidityOf | python.py:168-194 | both years are "N/A" together, exactly when a current-assets or current-liabilities row is missing; otherwise each year is the ratio of the first such rows |
| Liquidity.RatioDefined | python.py:168-176 | with both rows present, a year's ratio is a value iff its liabilities are nonzero, and then it is assets over liabilities |
| Liquidity.ProcessedLabels | python.py:168-172 | the processed table has the uploaded labels, so the ratio rows are looked up in input order |
| Chat.ChatPrompt | python.py:245-249 | the prompt is the fixed header, then the document, then the fixed separator, then the question, each at its offset |
| Chat.PromptDeterminesQuestion | python.py:245-249 | for one document, the prompt determines the question |
| Chat.ErrorReply | python.py:111-114 | a failure's reply is an error reply whose prefix names the kind of error and whose remainder is the error's own text |
| Chat.ErrorRepliesDiffer | python.py:111-114 | two failures of different kinds, or with different texts, give different replies |
| Chat.Send | python.py:106-109 | an answer becomes the reply and extends the session's context by the prompt; an error becomes its error reply and leaves the session as it was |
| Chat.Respond | python.py:77-114 | no usable key gives the fixed reply and changes nothing; when a client is stored it is kept, and a stored session is never dropped; a new client holds the key; a failed client creation is reported and stores nothing, a failed session creation is reported and leaves the new client stored and any stored session as it was (with `SessionHasClient`, none is stored); when both are created, the new client and session stay stored, and the reply is the answer (context: the prompt) or the send error's reply (context empty); with a stored client and session the reply is the provider's answer (context extended by the prompt) or that error's reply (session unchanged) |
| Chat.FirstTurnCreatesSession | python.py:86-109 | the first turn with a working provider creates the client and a session whose context is that one prompt |
| Chat.LaterTurnReusesSession | python.py:86-114 | a later turn reuses the stored client and session: an answer is the reply and extends the context by the prompt, an error gives its error reply and leaves the session unchanged |
| Chat.ClientWithoutSessionIsStuck | python.py:86-108 | a stored client without a session is never repaired: every turn answers with the same error |
| Chat.InitMessages | python.py:150-157 | an absent log becomes the one welcome message; a present log is left untouched |
| Chat.Reset | python.py:263-265 | the log, the client and the session are removed; the stored document stays |
| Chat.Submit | python.py:239-258 | a question appends exactly the user message and then the assistant reply, even an error reply, and never drops the client or session |
| Chat.NoHistoryAfterReset | python.py:268-277 | after a reset a turn leaves the welcome, the question and the reply, and the session context holds at most the new prompt |
| App.Answer | python.py:237-258 | an empty or absent question changes nothing; a submitted one adds two messages after the old log |
| App.Headline | python.py:209 | the current-assets growth of the first current-assets row, absent iff no such row |
| App.RunAsWritten | python.py:127-277 | as written: idle iff no file; failed iff unreadable, no total row, or no current-assets row (the structure handler for a missing total, the catch-all otherwise); otherwise shows the processed table, its liquidity and headline and stores its document; the log exists afterwards iff the table is shown, and every other outcome clears log, client and session |
| App.Run | python.py:127-277 | corrected: idle iff no file; failed iff unreadable or no total row; otherwise shows the processed table, its liquidity and headline and stores its document |
| App.RunKeepsInvariant | python.py:260-277 | no run leaves a session without a client |
| App.SameDocumentContinues | python.py:150-160 | corrected: reprocessing the same document keeps the log and a question adds two messages |
| App.NewDocumentStartsOver | python.py:150-160 | corrected: a run with a different document starts the log from the welcome and the session from nothing |
| App.MissingCurrentAssetsIsShown | python.py:191-194 | corrected: without a current-assets row the table is shown with "N/A" ratios and no headline |
| App.NoCurrentAssetsNoHeadline | python.py:168-194 | without a current-assets row there is no headline and both ratios are "N/A" |
| App.MissingCurrentAssetsFailsAsWritten | python.py:209 | as written: without a current-assets row the run fails and the conversation is dropped |
| App.NewDocumentKeepsHistoryAsWritten | python.py:150-160 | as written: a new valid file keeps the old log as a prefix and the old session with its context |
| Scenarios.SampleMetrics | python.py:28-45 | for total 1000→1200, current assets 400→600, liabilities 200→300: growth 50, share 50, total share 100, ratio 2 in both years |
| Scenarios.LowerCaseLabelMatches | python.py:168 | "Tổng tài sản ngắn hạn" matches the pattern "TÀI SẢN NGẮN HẠN" |
| Scenarios.TotalOnlyScenario | python.py:209 | a sheet with only the total row fails as written and is shown with "N/A" ratios when corrected |
| Scenarios.ReplaceFileAsWritten | python.py:150-157 | as written, replacing file A by file B keeps the exchange about A and the session's prompt about A |
| Scenarios.ReplaceFileCorrected | python.py:150-157 | corrected, the log restarts and no prompt about A remains in the session |

## Findings

| source | as written | input that shows it | evidently intended | confidence | as-written member | corrected member |
|---|---|---|---|---|---|---|
| python.py:209 | the current-assets growth for the AI summary is read with `.iloc[0]` outside the `IndexError` guard of lines 166-194, so a missing "TÀI SẢN NGẮN HẠN" row raises, the catch-all handler (266-270) reports a file error and the chat state is dropped | a sheet holding only `("TỔNG CỘNG TÀI SẢN", 1000, 1200)` | a missing current-assets row is not fatal: ratios and headline show "N/A" and the run goes on, as lines 191-194 do for the ratios | high, not executed | App.MissingCurrentAssetsFailsAsWritten | App.MissingCurrentAssetsIsShown |
| python.py:150-160 | the log is created only when absent and reset only on failure or no file, so a valid file B replacing a valid file A keeps the conversation about A and the provider session that saw A | file A with one answered question, then the example sheet whose document differs | a new grounding document starts a new conversation, as the comment at line 262 says | medium, not executed (assumes the upload widget does not rerun with no file between the two uploads) | App.NewDocumentKeepsHistoryAsWritten | App.NewDocumentStartsOver |

`Scenarios.TotalOnlyScenario`, `Scenarios.ReplaceFileAsWritten` and
`Scenarios.ReplaceFileCorrected` exhibit both findings on those concrete inputs.

## Left out

- Streamlit rendering (uploader, tables, metrics, chat widgets, spinners) and the display format strings of lines 141-147 and 180-188: presentation only.
- `st.cache_data` (line 18): memoisation by the framework; a cached result equals a fresh one.
- `pd.read_excel` and the renaming of columns (lines 129-132): the model receives either an unreadable upload (with the handler that reports it) or the rows.
- Cells.ParseNumber: accepts an optional sign, decimal digits and at most one point; texts with an exponent ("1e5"), surrounding spaces (" 12") or `inf` coerce to 0 here while the source's numeric parser reads them as numbers, and booleans are not modelled, because the parser's exact acceptance rules are a library detail.
- Labels.FoldChar: lower-cases ASCII, Latin-1 and the letters Vietnamese uses, not all of Unicode (in Latin Extended-A, U+0130 and U+0178-U+017E are left as they are); there is no Unicode normalisation, so precomposed and decomposed letters differ.
- The patterns are searched as regular expressions by the source; they hold no special characters, so plain substring search is the same.
- A label column with no text at all: the source's `.str` raises `AttributeError`, which the catch-all handler at line 266 reports; here labels are `Option<string>` with a non-text label as `None`, so such a sheet finds no total row and fails with `Failed(StructureError)` instead of `Failed(ProcessingError)`.
- `to_markdown` (lines 160, 200-213) is the function parameter `markdown`; its only property used is that it is a function.
- `get_ai_analysis` and its button (lines 50-74, 196-224): a one-shot foreign call whose result is only displayed and changes no state.
- Gemini calls (`genai.Client`, `chats.create`, `send_message`) are the `Provider` record; a session's context is modelled as the prompts it answered, unchanged by a failed send, which is an assumption about the provider.
- Chat.MissingSessionDetail: the text of the error raised when the session entry is absent is a stand-in.
- A reply whose text is absent (`response.text` being `None`) is not modelled: replies are strings.
- Secrets retrieval (lines 80, 216) is the `secret` parameter; a failure of the secrets store itself is not modelled.
- Floating point: values are reals, so rounding and numpy's `inf`/`nan` are not modelled; a zero liabilities value gives `Undefined` instead.

=== FILE: app.dfy ===
/**
 * One run of the app script (python.py:122-277): with no file, clear the chat
 * state; with a file, process it, show the table, the liquidity pair and the
 * current-assets growth, and answer a submitted question; on any failure,
 * clear the chat state. `RunAsWritten` is the script as it stands; `Run` is
 * the corrected run the rest of the model uses (the two differences are
 * described on `RunAsWritten` and `Run`).
 */
module App {
  import opened Wrappers
  import opened Labels
  import opened Metrics
  import opened Liquidity
  import opened Chat

  /** Which error handler reports a failure: the structure one (a `ValueError`) or the catch-all. */
  datatype FailureKind = StructureError | ProcessingError

  /** The upload widget's content, after the workbook reader has run. */
  datatype Upload = NoFile | Unreadable(kind: FailureKind) | Sheet(rows: seq<RawRow>)

  /** What the run shows. */
  datatype Screen =
    | Idle
    | Failed(kind: FailureKind)
    | Shown(table: seq<Row>, liquidity: Liquidity, headline: Option<real>)

  datatype Step = Step(state: ChatState, screen: Screen)

  /** A client is stored whenever a session is. */
  predicate SessionHasClient(st: ChatState) {
    st.session.Some? ==> st.client.Some?
  }

  /** The chat box hands over a question only when it is non-empty. */
  predicate Submitted(question: Option<string>) {
    question.Some? && question.value != ""
  }

  /** Answer a submitted question, if any. */
  function Answer(st: ChatState, question: Option<string>, secret: Option<string>, p: Provider): (r: ChatState)
    requires st.messages.Some? && st.document.Some?
    ensures r.messages.Some? && r.document == st.document
    ensures !Submitted(question) ==> r == st
    ensures Submitted(question) ==>
      && |r.messages.value| == |st.messages.value| + 2
      && r.messages.value[..|st.messages.value|] == st.messages.value
      && r.messages.value[|st.messages.value|] == Message(User, question.value)
    ensures SessionHasClient(st) ==> SessionHasClient(r)
  {
    if Submitted(question) then
      var r := Submit(st, secret, question.value, p);
      assert r.messages.value[..|st.messages.value|] == st.messages.value;
      r
    else st
  }

  /** The growth of the first current-assets row, if there is one. */
  function Headline(t: seq<Row>): (g: Option<real>)
    ensures g.None? <==> forall i :: 0 <= i < |t| ==> !Matches(t[i].item, CurrentAssets)
    ensures forall a: nat :: IsFirst(RowLabels(t), CurrentAssets, a) ==> g == Some(t[a].growth)
  {
    match FindFirst(RowLabels(t), CurrentAssets)
    case None => None
    case Some(a) =>
      assert forall a': nat :: IsFirst(RowLabels(t), CurrentAssets, a') ==> a' == a by {
        forall a': nat | IsFirst(RowLabels(t), CurrentAssets, a') ensures a' == a {
          FirstIsUnique(RowLabels(t), CurrentAssets, a');
        }
      }
      Some(t[a].growth)
  }

  /**
   * The script as written. The current-assets growth is read without a guard
   * (python.py:209), so a table without a current-assets row fails through
   * the catch-all handler; and the log is only created when absent
   * (python.py:150), so a new file keeps the previous conversation.
   */
  function RunAsWritten(st: ChatState, upload: Upload, question: Option<string>, secret: Option<string>,
                        p: Provider, markdown: seq<Row> -> string): (s: Step)
    ensures s.screen.Shown? <==> s.state.messages.Some?
    ensures !s.screen.Shown? ==> s.state.client.None? && s.state.session.None?
    ensures s.screen.Idle? <==> upload.NoFile?
    ensures s.screen.Failed? <==>
      || upload.Unreadable?
      || (upload.Sheet? && (Process(upload.rows).Failure? || Headline(Process(upload.rows).value).None?))
    ensures s.screen.Failed? && upload.Sheet? ==>
      s.screen.kind == (if Process(upload.rows).Failure? then StructureError else ProcessingError)
    ensures s.screen.Shown? ==>
      && upload.Sheet? && Process(upload.rows).Success?
      && s.screen == Shown(Process(upload.rows).value, LiquidityOf(Process(upload.rows).value), Headline(Process(upload.rows).value))
      && s.state.document == Some(markdown(Process(upload.rows).value))
    ensures SessionHasClient(st) ==> SessionHasClient(s.state)
  {
    match upload
    case NoFile => Step(Reset(st), Idle)
    case Unreadable(kind) => Step(Reset(st), Failed(kind))
    case Sheet(raw) =>
      match Process(raw)
      case Failure(_) => Step(Reset(st), Failed(StructureError))
      case Success(t) =>
        var s1 := InitMessages(st).(document := Some(markdown(t)));
        match Headline(t)
        case None => Step(Reset(s1), Failed(ProcessingError))
        case Some(_) => Step(Answer(s1, question, secret, p), Shown(t, LiquidityOf(t), Headline(t)))
  }

  /**
   * The corrected run: a missing current-assets row only blanks the growth
   * headline, as a missing liquidity row blanks the ratios; and a processed
   * table whose grounding document differs from the stored one starts a new
   * conversation.
   */
  function Run(st: ChatState, upload: Upload, question: Option<string>, secret: Option<string>,
               p: Provider, markdown: seq<Row> -> string): (s: Step)
    ensures s.screen.Shown? <==> s.state.messages.Some?
    ensures !s.screen.Shown? ==> s.state.client.None? && s.state.session.None?
    ensures s.screen.Idle? <==> upload.NoFile?
    ensures s.screen.Failed? <==> upload.Unreadable? || (upload.Sheet? && Process(upload.rows).Failure?)
    ensures s.screen.Shown? ==>
      && upload.Sheet? && Process(upload.rows).Success?
      && s.screen == Shown(Process(upload.rows).value, LiquidityOf(Process(upload.rows).value), Headline(Process(upload.rows).value))
      && s.state.document == Some(markdown(Process(upload.rows).value))
    ensures SessionHasClient(st) ==> SessionHasClient(s.state)
  {
    match upload
    case NoFile => Step(Reset(st), Idle)
    case Unreadable(kind) => Step(Reset(st), Failed(kind))
    case Sheet(raw) =>
      match Process(raw)
      case Failure(_) => Step(Reset(st), Failed(StructureError))
      case Success(t) =>
        var doc := markdown(t);
        var s0 := if st.document == Some(doc) then st else Reset(st);
        var s1 := InitMessages(s0).(document := Some(doc));
        Step(Answer(s1, question, secret, p), Shown(t, LiquidityOf(t), Headline(t)))
  }

  /** No run, as written or corrected, leaves a session stored without a client. */
  lemma RunKeepsInvariant(st: ChatState, upload: Upload, question: Option<string>, secret: Option<string>,
                          p: Provider, markdown: seq<Row> -> string)
    requires SessionHasClient(st)
    ensures SessionHasClient(Run(st, upload, question, secret, p, markdown).state)
    ensures SessionHasClient(RunAsWritten(st, upload, question, secret, p, markdown).state)
  {
  }

  /**
   * A run that shows the table for the same document continues the
   * conversation: the old log is a prefix and a question adds exactly two
   * messages.
   */
  lemma SameDocumentContinues(st: ChatState, raw: seq<RawRow>, question: string,
                              secret: Option<string>, p: Provider, markdown: seq<Row> -> string)
    requires Process(raw).Success? && st.messages.Some?
    requires st.document == Some(markdown(Process(raw).value))
    requires question != ""
    ensures var s := Run(st, Sheet(raw), Some(question), secret, p, markdown);
      && s.state.messages.Some?
      && |s.state.messages.value| == |st.messages.value| + 2
      && s.state.messages.value[..|st.messages.value|] == st.messages.value
      && s.state.messages.value[|st.messages.value|] == Message(User, question)
  {
    var t := Process(raw).value;
    var s1 := InitMessages(st).(document := Some(markdown(t)));
    assert s1 == st;
    assert Run(st, Sheet(raw), Some(question), secret, p, markdown).state == Answer(s1, Some(question), secret, p);
  }

  /**
   * A run whose document differs from the stored one starts over: the log is
   * the welcome message (and this run's question and reply), and the
   * provider's context holds at most this run's prompt.
   */
  lemma NewDocumentStartsOver(st: ChatState, raw: seq<RawRow>, question: string,
                              secret: Option<string>, p: Provider, markdown: seq<Row> -> string)
    requires Process(raw).Success?
    requires st.document != Some(markdown(Process(raw).value))
    requires question != ""
    ensures var s := Run(st, Sheet(raw), Some(question), secret, p, markdown);
      var doc := markdown(Process(raw).value);
      && s.state.messages.Some? && |s.state.messages.value| == 3
      && s.state.messages.value[0] == Message(Assistant, Welcome)
      && s.state.messages.value[1] == Message(User, question)
      && (s.state.session.Some? ==> s.state.session.value.sent <= [ChatPrompt(doc, question)])
  {
    var doc := markdown(Process(raw).value);
    NoHistoryAfterReset(st, doc, secret, question, p);
  }

  /** With the corrected run, a table without a current-assets row is still shown, with no headline. */
  lemma MissingCurrentAssetsIsShown(st: ChatState, raw: seq<RawRow>, question: Option<string>,
                                    secret: Option<string>, p: Provider, markdown: seq<Row> -> string)
    requires Process(raw).Success?
    requires forall i :: 0 <= i < |raw| ==> !Matches(raw[i].item, CurrentAssets)
    ensures var s := Run(st, Sheet(raw), question, secret, p, markdown);
      && s.screen.Shown?
      && s.screen.headline.None?
      && s.screen.liquidity == Liquidity(NotAvailable, NotAvailable)
      && s.state.messages.Some?
  {
    NoCurrentAssetsNoHeadline(raw);
  }

  /** Processing keeps labels, so a sheet without a current-assets row gives no headline and no ratios. */
  lemma NoCurrentAssetsNoHeadline(raw: seq<RawRow>)
    requires Process(raw).Success?
    requires forall i :: 0 <= i < |raw| ==> !Matches(raw[i].item, CurrentAssets)
    ensures Headline(Process(raw).value).None?
    ensures LiquidityOf(Process(raw).value) == Liquidity(NotAvailable, NotAvailable)
  {
    var t := Process(raw).value;
    assert forall i :: 0 <= i < |t| ==> t[i].item == raw[i].item;
  }

  /**
   * As written, the same table fails: the headline lookup raises outside the
   * guard, the catch-all handler reports it and the chat state is dropped.
   */
  lemma MissingCurrentAssetsFailsAsWritten(st: ChatState, raw: seq<RawRow>, question: Option<string>,
                                           secret: Option<string>, p: Provider, markdown: seq<Row> -> string)
    requires Process(raw).Success?
    requires forall i :: 0 <= i < |raw| ==> !Matches(raw[i].item, CurrentAssets)
    ensures var s := RunAsWritten(st, Sheet(raw), question, secret, p, markdown);
      && s.screen == Failed(ProcessingError)
      && s.state.messages.None? && s.state.client.None? && s.state.session.None?
  {
    var t := Process(raw).value;
    NoCurrentAssetsNoHeadline(raw);
    var s1 := InitMessages(st).(document := Some(markdown(t)));
    assert RunAsWritten(st, Sheet(raw), question, secret, p, markdown) == Step(Reset(s1), Failed(ProcessingError));
  }

  /**
   * As written, a new valid file keeps the earlier conversation: the old log
   * stays a prefix and the old session, with its context, is reused.
   */
  lemma NewDocumentKeepsHistoryAsWritten(st: ChatState, raw: seq<RawRow>, question: Option<string>,
                                         secret: Option<string>, p: Provider, markdown: seq<Row> -> string)
    requires Process(raw).Success?
    requires exists a: nat :: IsFirst(LabelsOf(raw), CurrentAssets, a)
    requires st.messages.Some? && st.client.Some? && st.session.Some?
    ensures var s := RunAsWritten(st, Sheet(raw), question, secret, p, markdown);
      && s.screen.Shown?
      && s.state.messages.Some? && st.messages.value <= s.state.messages.value
      && s.state.client == st.client
      && s.state.session.Some? && st.session.value.sent <= s.state.session.value.sent
  {
    var t := Process(raw).value;
    var a: nat :| IsFirst(LabelsOf(raw), CurrentAssets, a);
    assert RowLabels(t) == LabelsOf(raw);
    assert Headline(t) == Some(t[a].growth);
    var s1 := InitMessages(st).(document := Some(markdown(t)));
    assert s1.messages == st.messages && s1.session == st.session;
  }
}

=== FILE: cells.dfy ===
/**
 * Numeric coercion of the two value columns of a statement (python.py:23-25):
 * every cell is parsed as a number, and a cell that is missing or does not
 * parse becomes 0.
 */
module Cells {
  import opened Wrappers

  /** One cell of a value column as the workbook reader hands it over. */
  datatype Cell = Blank | Number(value: real) | Text(text: string)

  predicate IsDigit(c: char) {
    '0' <= c <= '9'
  }

  predicate AllDigits(s: string) {
    forall i :: 0 <= i < |s| ==> IsDigit(s[i])
  }

  function DigitValue(c: char): nat
    requires IsDigit(c)
  {
    c as int - '0' as int
  }

  /** The value of a string of decimal digits; the empty string is worth 0. */
  function DigitsValue(s: string): nat
    requires AllDigits(s)
    decreases |s|
  {
    if |s| == 0 then 0 else DigitsValue(s[..|s| - 1]) * 10 + DigitValue(s[|s| - 1])
  }

  function Pow10(n: nat): (p: nat)
    ensures p > 0
  {
    if n == 0 then 1 else 10 * Pow10(n - 1)
  }

  /** `n` decimal digits are worth less than 10^n. */
  lemma {:induction false} DigitsBelow(s: string)
    requires AllDigits(s)
    ensures DigitsValue(s) < Pow10(|s|)
    decreases |s|
  {
    if |s| > 0 {
      var t := s[..|s| - 1];
      DigitsBelow(t);
      assert DigitsValue(t) <= Pow10(|t|) - 1;
      assert DigitsValue(s) <= (Pow10(|t|) - 1) * 10 + 9;
    }
  }

  lemma ProperFraction(d: nat, p: nat)
    requires d < p
    ensures 0.0 <= d as real / p as real < 1.0
  {
  }

  /** The value of the digits after a decimal point: "25" is worth 25/100. */
  function FractionValue(s: string): (v: real)
    requires AllDigits(s)
    ensures 0.0 <= v < 1.0
  {
    DigitsBelow(s);
    ProperFraction(DigitsValue(s), Pow10(|s|));
    DigitsValue(s) as real / Pow10(|s|) as real
  }

  /** Position of the first occurrence of `c` in `s`, if any. */
  function IndexOf(s: string, c: char): (r: Option<nat>)
    ensures r.Some? ==> r.value < |s| && s[r.value] == c && c !in s[..r.value]
    ensures r.None? ==> c !in s
  {
    if |s| == 0 then None
    else if s[0] == c then Some(0)
    else match IndexOf(s[1..], c)
      case None => None
      case Some(k) => assert s[..k + 1] == [s[0]] + s[1..][..k]; Some(k + 1)
  }

  /**
   * An unsigned decimal: digits with at most one '.', and at least one digit
   * on one side of the point ("12", "12.5", ".5", "12.").
   */
  function ParseUnsigned(s: string): (r: Option<real>)
    ensures r.Some? ==> 0.0 <= r.value
    ensures r.Some? ==> |s| > 0 && s[0] != '-' && s[0] != '+'
  {
    match IndexOf(s, '.')
    case None =>
      if |s| > 0 && AllDigits(s) then Some(DigitsValue(s) as real) else None
    case Some(k) =>
      var whole, frac := s[..k], s[k + 1..];
      if |whole| + |frac| > 0 && AllDigits(whole) && AllDigits(frac)
      then Some(DigitsValue(whole) as real + FractionValue(frac))
      else None
  }

  /**
   * A decimal with an optional leading sign. Only a leading '-' gives a
   * negative value, and a text starting with '-' never reads as positive.
   */
  function ParseNumber(s: string): (r: Option<real>)
    ensures r.Some? ==> |s| > 0
    ensures r.Some? && r.value < 0.0 ==> s[0] == '-'
    ensures r.Some? && s[0] == '-' ==> r.value <= 0.0
  {
    if |s| > 0 && s[0] == '-' then
      match ParseUnsigned(s[1..])
      case None => None
      case Some(v) => Some(-v)
    else if |s| > 0 && s[0] == '+' then ParseUnsigned(s[1..])
    else ParseUnsigned(s)
  }

  /**
   * What the numeric parser makes of a cell: `None` is the parser's NaN. A
   * blank cell is NaN, a number stays as it is, and a text is read as a decimal.
   */
  function Parse(c: Cell): (r: Option<real>)
    ensures c.Blank? ==> r.None?
    ensures c.Number? ==> r == Some(c.value)
    ensures c.Text? ==> r == ParseNumber(c.text)
  {
    match c
    case Blank => None
    case Number(v) => Some(v)
    case Text(t) => ParseNumber(t)
  }

  /** Parse, then replace a failed parse by 0; never fails. */
  function Coerce(c: Cell): (x: real)
    ensures Parse(c).Some? ==> x == Parse(c).value
    ensures Parse(c).None? ==> x == 0.0
    ensures c.Blank? ==> x == 0.0
  {
    match Parse(c)
    case Some(v) => v
    case None => 0.0
  }

  /** Decimal rendering of a natural number, without leading zeros. */
  function ShowNat(n: nat): string
    decreases n
  {
    if n < 10 then [('0' as int + n) as char]
    else ShowNat(n / 10) + [('0' as int + n % 10) as char]
  }

  /** Decimal rendering of an integer, with a '-' for negatives. */
  function ShowInt(n: int): string {
    if n < 0 then "-" + ShowNat(-n) else ShowNat(n)
  }

  lemma {:induction false} ShowNatDigits(n: nat)
    ensures |ShowNat(n)| > 0
    ensures AllDigits(ShowNat(n))
    ensures ShowNat(n)[0] != '-' && ShowNat(n)[0] != '+'
    ensures DigitsValue(ShowNat(n)) == n
    decreases n
  {
    if n >= 10 {
      ShowNatDigits(n / 10);
      var s := ShowNat(n);
      assert s[..|s| - 1] == ShowNat(n / 10);
    }
  }

  /** The text "-1250" or "300" coerces to the integer it spells. */
  lemma ShowIntRoundTrip(n: int)
    ensures ParseNumber(ShowInt(n)) == Some(n as real)
    ensures Coerce(Text(ShowInt(n))) == n as real
  {
    var m: nat := if n < 0 then -n else n;
    ShowNatDigits(m);
    var s := ShowNat(m);
    assert ParseUnsigned(s) == Some(m as real);
    if n < 0 {
      assert ShowInt(n)[1..] == s;
    }
  }

  /** A sign in front of an unsigned decimal: '-' negates its value, '+' changes nothing. */
  lemma SignNegates(s: string)
    requires |s| > 0 && s[0] != '-' && s[0] != '+'
    ensures ParseNumber("-" + s) == if ParseNumber(s).Some? then Some(-ParseNumber(s).value) else None
    ensures ParseNumber("+" + s) == ParseNumber(s)
  {
    assert ("-" + s)[1..] == s;
    assert ("+" + s)[1..] == s;
  }

  lemma Rescale(w: nat, digits: nat, p: nat)
    requires p > 0
    ensures w as real + digits as real / p as real == (w * p + digits) as real / p as real
  {
    assert (w * p) as real == w as real * p as real;
  }

  /** The point of "w.f" is found after the digits of `w`, so its two sides are read apart. */
  lemma DecimalSplits(w: nat, f: string)
    requires |f| > 0 && AllDigits(f)
    ensures ParseNumber(ShowNat(w) + "." + f) == Some(w as real + FractionValue(f))
  {
    ShowNatDigits(w);
    var whole := ShowNat(w);
    var s := whole + "." + f;
    assert '.' !in whole by {
      forall i | 0 <= i < |whole| ensures whole[i] != '.' {
        assert IsDigit(whole[i]);
      }
    }
    assert s[..|whole|] == whole && s[|whole|] == '.' && s[0] == whole[0];
    assert IndexOf(s, '.') == Some(|whole|);
    assert s[|whole| + 1..] == f;
  }

  /** A decimal text "w.f" reads back as the fraction (w * 10^|f| + f) / 10^|f|: "12.25" is 1225/100. */
  lemma DecimalRoundTrip(w: nat, f: string)
    requires |f| > 0 && AllDigits(f)
    ensures ParseNumber(ShowNat(w) + "." + f) == Some((w * Pow10(|f|) + DigitsValue(f)) as real / Pow10(|f|) as real)
  {
    var d, p := DigitsValue(f), Pow10(|f|);
    DecimalSplits(w, f);
    assert FractionValue(f) == d as real / p as real;
    Rescale(w, d, p);
  }
}

=== FILE: chat.dfy ===
/**
 * Chat bookkeeping of the app: the message log kept in the session state
 * (python.py:150-157, 240, 258), the prompt sent for each question
 * (python.py:245-249), the lazily created provider client and chat session
 * with their error replies (python.py:77-114), and the reset that drops all
 * of it (python.py:263-265, 268-270, 275-277).
 */
module Chat {
  import opened Wrappers

  datatype Role = User | Assistant

  datatype Message = Message(role: Role, content: string)

  /** The provider client, created from the API key. */
  datatype Client = Client(apiKey: string)

  /**
   * A provider chat session: its model, its system instruction, and the
   * prompts it has answered, which the provider keeps as context.
   */
  datatype Session = Session(model: string, instruction: string, sent: seq<string>)

  /**
   * The chat entries of the session state: the message log, the client, the
   * chat session, and the grounding document of the last processed table.
   * `None` is an entry that is absent.
   */
  datatype ChatState = ChatState(messages: Option<seq<Message>>, client: Option<Client>,
                                 session: Option<Session>, document: Option<string>)

  /** What one foreign call does: return a value, raise the provider's API error, or raise anything else. */
  datatype Outcome<T> = Returns(value: T) | RaisesApiError(detail: string) | RaisesOther(detail: string)

  /** How the provider behaves during one turn, call by call. */
  datatype Provider = Provider(newClient: Outcome<bool>, newSession: Outcome<bool>, send: Outcome<string>)

  /** The reply of one turn and the client and session it leaves behind. */
  datatype Turn = Turn(reply: string, client: Option<Client>, session: Option<Session>)

  const Welcome: string :=
    "Chào mừng bạn đến với chuyên gia phân tích tài chính AI! "
    + "Tôi đã phân tích Bảng Cân đối Kế toán của bạn. "
    + "Hãy hỏi tôi bất kỳ điều gì về tốc độ tăng trưởng, tỷ trọng cơ cấu tài sản, hoặc các chỉ số tài chính đã tính toán."

  const ModelName: string := "gemini-2.5-flash"

  const Instruction: string :=
    "Bạn là một chuyên gia phân tích tài chính am hiểu. "
    + "Hãy trả lời các câu hỏi về tài chính của người dùng, sử dụng dữ liệu Báo cáo Tài chính đã được tải lên và phân tích. "
    + "Tuyệt đối không trả lời các câu hỏi ngoài phạm vi phân tích tài chính và dữ liệu đã cung cấp."

  const PromptHeader: string := "Dữ liệu Báo cáo Tài chính đã phân tích:\n\n"

  const QuestionHeader: string := "\n\nCâu hỏi của tôi: "

  const MissingKeyReply: string := "Lỗi API: Vui lòng cấu hình Khóa 'GEMINI_API_KEY' trong Streamlit Secrets."

  const ApiErrorPrefix: string := "Lỗi gọi Gemini API: "

  const UnknownErrorPrefix: string := "Lỗi không xác định: "

  /** Stand-in for the text of the error raised when the chat session entry is absent. */
  const MissingSessionDetail: string := "st.session_state has no attribute \"chat_session\""

  /**
   * The message sent for one question: a fixed header, the grounding
   * document, a fixed separator, the question.
   */
  function ChatPrompt(document: string, question: string): (p: string)
    ensures |p| == |PromptHeader| + |document| + |QuestionHeader| + |question|
    ensures p[..|PromptHeader|] == PromptHeader
    ensures p[|PromptHeader|..|PromptHeader| + |document|] == document
    ensures p[|PromptHeader| + |document|..|PromptHeader| + |document| + |QuestionHeader|] == QuestionHeader
    ensures p[|PromptHeader| + |document| + |QuestionHeader|..] == question
  {
    var p := PromptHeader + document + QuestionHeader + question;
    assert p == PromptHeader + (document + (QuestionHeader + question));
    p
  }

  /** Two prompts for the same document are equal only for equal questions. */
  lemma PromptDeterminesQuestion(document: string, q1: string, q2: string)
    requires ChatPrompt(document, q1) == ChatPrompt(document, q2)
    ensures q1 == q2
  {
    var n := |PromptHeader| + |document| + |QuestionHeader|;
    assert q1 == ChatPrompt(document, q1)[n..];
  }

  /** A reply that reports a failure rather than a provider answer. */
  predicate IsErrorReply(s: string) {
    s == MissingKeyReply || ApiErrorPrefix <= s || UnknownErrorPrefix <= s
  }

  /**
   * The text shown for a failed call: a prefix naming the kind of failure,
   * then the error's own text, which can be read back from the reply.
   */
  function ErrorReply<T>(o: Outcome<T>): (s: string)
    requires !o.Returns?
    ensures IsErrorReply(s)
    ensures o.RaisesApiError? ==> ApiErrorPrefix <= s && s[|ApiErrorPrefix|..] == o.detail
    ensures o.RaisesOther? ==> UnknownErrorPrefix <= s && s[|UnknownErrorPrefix|..] == o.detail
  {
    if o.RaisesApiError? then ApiErrorPrefix + o.detail else UnknownErrorPrefix + o.detail
  }

  /** The reply tells the two kinds of failure apart, and within a kind, different errors apart. */
  lemma ErrorRepliesDiffer<T>(a: Outcome<T>, b: Outcome<T>)
    requires !a.Returns? && !b.Returns?
    requires a.RaisesApiError? != b.RaisesApiError? || a.detail != b.detail
    ensures ErrorReply(a) != ErrorReply(b)
  {
    if a.RaisesApiError? != b.RaisesApiError? {
      assert ErrorReply(a)[4] != ErrorReply(b)[4];
    } else if a.RaisesApiError? {
      assert ErrorReply(a)[|ApiErrorPrefix|..] != ErrorReply(b)[|ApiErrorPrefix|..];
    } else {
      assert ErrorReply(a)[|UnknownErrorPrefix|..] != ErrorReply(b)[|UnknownErrorPrefix|..];
    }
  }

  /** One message to an existing session: an answer extends its context, an error leaves it as it was. */
  function Send(client: Option<Client>, s: Session, prompt: string, o: Outcome<string>): (t: Turn)
    ensures t.client == client
    ensures t.session.Some? && t.session.value.model == s.model && t.session.value.instruction == s.instruction
    ensures o.Returns? ==> t.reply == o.value && t.session.value.sent == s.sent + [prompt]
    ensures !o.Returns? ==> t.reply == ErrorReply(o) && t.session == Some(s)
  {
    match o
    case Returns(text) => Turn(text, client, Some(s.(sent := s.sent + [prompt])))
    case _ => Turn(ErrorReply(o), client, Some(s))
  }

  /**
   * One call of the chat helper: without a usable key, a fixed error reply;
   * otherwise create the client and session if the client entry is absent,
   * then send. Every failure becomes the reply text.
   */
  function Respond(client: Option<Client>, session: Option<Session>, secret: Option<string>,
                   prompt: string, p: Provider): (t: Turn)
    ensures (secret.None? || secret.value == "") ==> t == Turn(MissingKeyReply, client, session)
    ensures client.Some? ==> t.client == client
    ensures session.Some? ==> t.session.Some?
    ensures client.Some? && session.Some? ==> session.value.sent <= t.session.value.sent
    ensures (session.Some? ==> client.Some?) ==> (t.session.Some? ==> t.client.Some?)
    ensures t.client.Some? && client.None? ==> t.client == Some(Client(secret.value))
    ensures IsErrorReply(t.reply) || (p.send.Returns? && t.reply == p.send.value)
    ensures secret.Some? && secret.value != "" && client.None? && !p.newClient.Returns? ==>
      t == Turn(ErrorReply(p.newClient), None, session)
    ensures secret.Some? && secret.value != "" && client.None? && p.newClient.Returns? && !p.newSession.Returns? ==>
      t == Turn(ErrorReply(p.newSession), Some(Client(secret.value)), session)
    ensures secret.Some? && secret.value != "" && client.Some? && session.Some? ==>
      && t.client == client
      && (p.send.Returns? ==> t.reply == p.send.value && t.session == Some(session.value.(sent := session.value.sent + [prompt])))
      && (!p.send.Returns? ==> t.reply == ErrorReply(p.send) && t.session == session)
    ensures secret.Some? && secret.value != "" && client.None? && p.newClient.Returns? && p.newSession.Returns? ==>
      && t.client == Some(Client(secret.value))
      && (p.send.Returns? ==> t == Turn(p.send.value, t.client, Some(Session(ModelName, Instruction, [prompt]))))
      && (!p.send.Returns? ==> t == Turn(ErrorReply(p.send), t.client, Some(Session(ModelName, Instruction, []))))
  {
    if secret.None? || secret.value == "" then Turn(MissingKeyReply, client, session)
    else if client.None? then
      if !p.newClient.Returns? then Turn(ErrorReply(p.newClient), client, session)
      else
        var c := Some(Client(secret.value));
        if !p.newSession.Returns? then Turn(ErrorReply(p.newSession), c, session)
        else
          assert [] + [prompt] == [prompt];
          Send(c, Session(ModelName, Instruction, []), prompt, p.send)
    else if session.None? then Turn(UnknownErrorPrefix + MissingSessionDetail, client, session)
    else Send(client, session.value, prompt, p.send)
  }

  /** The first turn with a working provider creates the client and a session whose context is that one prompt. */
  lemma FirstTurnCreatesSession(secret: string, prompt: string, p: Provider)
    requires secret != ""
    requires p.newClient.Returns? && p.newSession.Returns? && p.send.Returns?
    ensures Respond(None, None, Some(secret), prompt, p)
         == Turn(p.send.value, Some(Client(secret)), Some(Session(ModelName, Instruction, [prompt])))
  {
    assert [] + [prompt] == [prompt];
  }

  /**
   * A later turn reuses the client and session, whatever creating them would
   * do now: an answer is the reply and extends the context by the prompt; an
   * error is reported and leaves the session as it was.
   */
  lemma LaterTurnReusesSession(c: Client, s: Session, secret: string, prompt: string, p: Provider)
    requires secret != ""
    ensures var t := Respond(Some(c), Some(s), Some(secret), prompt, p);
      && t.client == Some(c)
      && (p.send.Returns? ==> t == Turn(p.send.value, Some(c), Some(s.(sent := s.sent + [prompt]))))
      && (!p.send.Returns? ==> t == Turn(ErrorReply(p.send), Some(c), Some(s)))
  {
  }

  /**
   * A client without a session (its creation failed after the client was
   * stored) is never repaired: each turn answers with the same error.
   */
  lemma ClientWithoutSessionIsStuck(c: Client, secret: string, prompt: string, p: Provider)
    requires secret != ""
    ensures Respond(Some(c), None, Some(secret), prompt, p)
         == Turn(UnknownErrorPrefix + MissingSessionDetail, Some(c), None)
  {
  }

  /** Create the log with the welcome message if it is absent; otherwise keep it. */
  function InitMessages(st: ChatState): (r: ChatState)
    ensures r.messages.Some?
    ensures st.messages.None? ==> r.messages == Some([Message(Assistant, Welcome)])
    ensures st.messages.Some? ==> r == st
    ensures r.client == st.client && r.session == st.session && r.document == st.document
  {
    if st.messages.None? then st.(messages := Some([Message(Assistant, Welcome)])) else st
  }

  /** Drop the log, the client and the session; the stored document stays. */
  function Reset(st: ChatState): (r: ChatState)
    ensures r.messages.None? && r.client.None? && r.session.None?
    ensures r.document == st.document
  {
    st.(messages := None, client := None, session := None)
  }

  /**
   * One question: log it, send it with the document, log the reply. The log
   * grows by exactly these two messages even when the reply is an error.
   */
  function Submit(st: ChatState, secret: Option<string>, question: string, p: Provider): (r: ChatState)
    requires st.messages.Some? && st.document.Some?
    ensures var reply := Respond(st.client, st.session, secret, ChatPrompt(st.document.value, question), p).reply;
      r.messages == Some(st.messages.value + [Message(User, question), Message(Assistant, reply)])
    ensures r.document == st.document
    ensures st.client.Some? ==> r.client == st.client
    ensures st.session.Some? ==> r.session.Some?
    ensures st.client.Some? && st.session.Some? ==> st.session.value.sent <= r.session.value.sent
    ensures (st.session.Some? ==> st.client.Some?) ==> (r.session.Some? ==> r.client.Some?)
  {
    var t := Respond(st.client, st.session, secret, ChatPrompt(st.document.value, question), p);
    st.(messages := Some(st.messages.value + [Message(User, question), Message(Assistant, t.reply)]),
        client := t.client, session := t.session)
  }

  /**
   * After a reset nothing of the earlier conversation survives a turn: the
   * log holds the welcome, the question and the reply, and the provider's
   * context holds at most the one new prompt.
   */
  lemma NoHistoryAfterReset(st: ChatState, doc: string, secret: Option<string>, question: string, p: Provider)
    ensures var r := Submit(InitMessages(Reset(st).(document := Some(doc))), secret, question, p);
      && r.messages.Some? && |r.messages.value| == 3
      && r.messages.value[0] == Message(Assistant, Welcome)
      && r.messages.value[1] == Message(User, question)
      && (r.session.Some? ==> r.session.value.sent <= [ChatPrompt(doc, question)])
  {
    var s0 := InitMessages(Reset(st).(document := Some(doc)));
    var t := Respond(None, None, secret, ChatPrompt(doc, question), p);
    assert s0.client.None? && s0.session.None?;
    if t.session.Some? {
      assert t.session.value.sent <= [ChatPrompt(doc, question)];
    }
  }
}

=== FILE: labels.dfy ===
/**
 * Line-item lookup by label (python.py:33, 168-172): a label matches a pattern
 * when it contains the pattern as a substring, ignoring case; a missing label
 * never matches; a lookup takes the first matching row in table order.
 */
module Labels {
  import opened Wrappers

  /**
   * Simple lower-casing of one character: ASCII, Latin-1 and the letters
   * Vietnamese uses (including O and U with horn).
   */
  function FoldChar(c: char): (r: char)
    ensures 'a' <= r <= 'z' <==> 'a' <= c <= 'z' || 'A' <= c <= 'Z'
    ensures r == c || r as int == c as int + 1 || r as int == c as int + 32
  {
    if 'A' <= c <= 'Z' then (c as int + 32) as char
    else if '\U{00C0}' <= c <= '\U{00DE}' && c != '\U{00D7}' then (c as int + 32) as char
    else if ('\U{0100}' <= c <= '\U{012F}' || '\U{0132}' <= c <= '\U{0137}' || '\U{014A}' <= c <= '\U{0177}'
             || '\U{1E00}' <= c <= '\U{1E95}' || '\U{1EA0}' <= c <= '\U{1EFF}') && c as int % 2 == 0
    then (c as int + 1) as char
    else if '\U{0139}' <= c <= '\U{0148}' && c as int % 2 == 1 then (c as int + 1) as char
    else if c == '\U{01A0}' || c == '\U{01AF}' then (c as int + 1) as char
    else c
  }

  /** Case folding of a whole string, character by character. */
  function Fold(s: string): (f: string)
    ensures |f| == |s|
    ensures forall i :: 0 <= i < |s| ==> f[i] == FoldChar(s[i])
  {
    seq(|s|, i requires 0 <= i < |s| => FoldChar(s[i]))
  }

  /** `pat` occurs in `text` as a contiguous substring. */
  predicate Contains(text: string, pat: string)
    decreases |text|
  {
    pat <= text || (|text| > 0 && Contains(text[1..], pat))
  }

  /** `pat` occurs in `text` at offset `k`. */
  predicate OccursAt(text: string, pat: string, k: nat) {
    k <= |text| && pat <= text[k..]
  }

  /** Substring containment is exactly occurrence at some offset. */
  lemma {:induction false} ContainsIff(text: string, pat: string)
    ensures Contains(text, pat) <==> exists k: nat :: OccursAt(text, pat, k)
    decreases |text|
  {
    if Contains(text, pat) {
      if pat <= text {
        assert OccursAt(text, pat, 0);
      } else {
        ContainsIff(text[1..], pat);
        var k: nat :| OccursAt(text[1..], pat, k);
        assert text[1..][k..] == text[k + 1..];
        assert OccursAt(text, pat, k + 1);
      }
    }
    if k: nat :| OccursAt(text, pat, k) {
      if k == 0 {
        assert text[0..] == text;
      } else {
        assert text[1..][k - 1..] == text[k..];
        assert OccursAt(text[1..], pat, k - 1);
        ContainsIff(text[1..], pat);
      }
    }
  }

  /**
   * A label matches a pattern when, after folding both, it contains it; a
   * missing label never matches.
   */
  function Matches(item: Option<string>, pat: string): (b: bool)
    ensures b <==> item.Some? && exists k: nat :: OccursAt(Fold(item.value), Fold(pat), k)
  {
    if item.None? then false
    else
      ContainsIff(Fold(item.value), Fold(pat));
      Contains(Fold(item.value), Fold(pat))
  }

  /** Row `k` is the first row whose label matches `pat`. */
  predicate IsFirst(labels: seq<Option<string>>, pat: string, k: nat) {
    && k < |labels|
    && Matches(labels[k], pat)
    && forall j :: 0 <= j < k ==> !Matches(labels[j], pat)
  }

  /** The first row whose label matches `pat`, or `None` when no row does. */
  function FindFirst(labels: seq<Option<string>>, pat: string): (r: Option<nat>)
    ensures r.Some? ==> IsFirst(labels, pat, r.value)
    ensures r.None? <==> forall j :: 0 <= j < |labels| ==> !Matches(labels[j], pat)
  {
    if |labels| == 0 then None
    else if Matches(labels[0], pat) then Some(0)
    else match FindFirst(labels[1..], pat)
      case None => None
      case Some(k) => Some(k + 1)
  }

  /** There is at most one first match, so `FindFirst` finds every one. */
  lemma FirstIsUnique(labels: seq<Option<string>>, pat: string, k: nat)
    requires IsFirst(labels, pat, k)
    ensures FindFirst(labels, pat) == Some(k)
  {
  }

  /** Rows appended after a match do not change which row is found first. */
  lemma FindFirstAppend(labels: seq<Option<string>>, more: seq<Option<string>>, pat: string)
    requires FindFirst(labels, pat).Some?
    ensures FindFirst(labels + more, pat) == FindFirst(labels, pat)
  {
    var k := FindFirst(labels, pat).value;
    assert IsFirst(labels + more, pat, k) by {
      assert forall j :: 0 <= j <= k ==> (labels + more)[j] == labels[j];
    }
    FirstIsUnique(labels + more, pat, k);
  }

  lemma FoldCharIdempotent(c: char)
    ensures FoldChar(FoldChar(c)) == FoldChar(c)
  {
  }

  /** Matching ignores case: a label matches exactly when its folded form does. */
  lemma MatchIgnoresCase(s: string, pat: string)
    ensures Matches(Some(s), pat) <==> Matches(Some(Fold(s)), pat)
  {
    forall i | 0 <= i < |s| ensures Fold(Fold(s))[i] == Fold(s)[i] {
      FoldCharIdempotent(s[i]);
    }
    assert Fold(Fold(s)) == Fold(s);
  }

  /** A label that contains the pattern at offset `k`, up to case, matches it. */
  lemma MatchesAt(item: string, pat: string, k: nat)
    requires k + |pat| <= |item|
    requires forall i :: 0 <= i < |pat| ==> FoldChar(item[k + i]) == FoldChar(pat[i])
    ensures Matches(Some(item), pat)
  {
    var f, p := Fold(item), Fold(pat);
    assert forall i :: 0 <= i < |p| ==> f[k..][i] == p[i];
    assert OccursAt(f, p, k);
    ContainsIff(f, p);
  }

  /** A label none of whose characters folds like `c` does not match a pattern holding `c`. */
  lemma MissingCharNoMatch(item: string, pat: string, c: char)
    requires exists i :: 0 <= i < |pat| && FoldChar(pat[i]) == FoldChar(c)
    requires forall i :: 0 <= i < |item| ==> FoldChar(item[i]) != FoldChar(c)
    ensures !Matches(Some(item), pat)
  {
    var f, p := Fold(item), Fold(pat);
    var i :| 0 <= i < |pat| && FoldChar(pat[i]) == FoldChar(c);
    forall k: nat ensures !OccursAt(f, p, k) {
      if k + |p| <= |f| {
        assert f[k..][i] != p[i];
      }
    }
    ContainsIff(f, p);
  }
}

=== FILE: liquidity.dfy ===
/**
 * The current ratio (python.py:166-194): the first current-assets row divided
 * by the first current-liabilities row, for each period. A missing row makes
 * both periods "N/A" and processing goes on.
 */
module Liquidity {
  import opened Wrappers
  import opened Labels
  import opened Metrics

  /** The pattern that identifies the current-assets line item. */
  const CurrentAssets: string := "TÀI SẢN NGẮN HẠN"

  /** The pattern that identifies the current-liabilities line item. */
  const CurrentLiabilities: string := "NỢ NGẮN HẠN"

  /**
   * One period's ratio: "N/A" when an input row is missing, `Undefined` for the
   * unguarded division by a zero liabilities value (infinite or not a number
   * in floating point), otherwise the quotient.
   */
  datatype Ratio = NotAvailable | Undefined | Value(x: real)

  datatype Liquidity = Liquidity(prior: Ratio, current: Ratio)

  function RowLabels(t: seq<Row>): (ls: seq<Option<string>>)
    ensures |ls| == |t| && forall i :: 0 <= i < |t| ==> ls[i] == t[i].item
  {
    seq(|t|, i requires 0 <= i < |t| => t[i].item)
  }

  /** The three patterns fold to their small letters, Vietnamese capitals included. */
  lemma FoldPatterns()
    ensures Fold(TotalAssets) == "tổng cộng tài sản"
    ensures Fold(CurrentAssets) == "tài sản ngắn hạn"
    ensures Fold(CurrentLiabilities) == "nợ ngắn hạn"
  {
  }

  /** Current assets over current liabilities for one period, with no zero guard. */
  function CurrentRatio(assets: real, liabilities: real): (r: Ratio)
    ensures r.Undefined? <==> liabilities == 0.0
    ensures r.Value? ==> r.x * liabilities == assets
    ensures !r.NotAvailable?
  {
    if liabilities == 0.0 then Undefined else Value(assets / liabilities)
  }

  /** The current ratio for both periods of a processed table. */
  function LiquidityOf(t: seq<Row>): (l: Liquidity)
    ensures l.prior.NotAvailable? <==> l.current.NotAvailable?
    ensures l.prior.NotAvailable? <==>
      (forall i :: 0 <= i < |t| ==> !Matches(t[i].item, CurrentAssets))
      || (forall i :: 0 <= i < |t| ==> !Matches(t[i].item, CurrentLiabilities))
    ensures forall a: nat, b: nat ::
      IsFirst(RowLabels(t), CurrentAssets, a) && IsFirst(RowLabels(t), CurrentLiabilities, b) ==>
      && l.prior == CurrentRatio(t[a].prior, t[b].prior)
      && l.current == CurrentRatio(t[a].current, t[b].current)
  {
    match (FindFirst(RowLabels(t), CurrentAssets), FindFirst(RowLabels(t), CurrentLiabilities))
    case (Some(a), Some(b)) =>
      assert forall a': nat, b': nat ::
        IsFirst(RowLabels(t), CurrentAssets, a') && IsFirst(RowLabels(t), CurrentLiabilities, b') ==> a' == a && b' == b
      by {
        forall a': nat, b': nat | IsFirst(RowLabels(t), CurrentAssets, a') && IsFirst(RowLabels(t), CurrentLiabilities, b')
          ensures a' == a && b' == b
        {
          FirstIsUnique(RowLabels(t), CurrentAssets, a');
          FirstIsUnique(RowLabels(t), CurrentLiabilities, b');
        }
      }
      Liquidity(CurrentRatio(t[a].prior, t[b].prior), CurrentRatio(t[a].current, t[b].current))
    case _ => Liquidity(NotAvailable, NotAvailable)
  }

  /** A current ratio is defined exactly when the liabilities value is nonzero, and then it is that quotient. */
  lemma RatioDefined(t: seq<Row>, a: nat, b: nat)
    requires IsFirst(RowLabels(t), CurrentAssets, a) && IsFirst(RowLabels(t), CurrentLiabilities, b)
    ensures LiquidityOf(t).current.Value? <==> t[b].current != 0.0
    ensures LiquidityOf(t).prior.Value? <==> t[b].prior != 0.0
    ensures t[b].current != 0.0 ==> LiquidityOf(t).current == Value(t[a].current / t[b].current)
    ensures t[b].prior != 0.0 ==> LiquidityOf(t).prior == Value(t[a].prior / t[b].prior)
  {
  }

  /** Processing keeps labels, so the liquidity rows are looked up in input order. */
  lemma ProcessedLabels(raw: seq<RawRow>)
    requires Process(raw).Success?
    ensures RowLabels(Process(raw).value) == LabelsOf(raw)
  {
  }
}

=== FILE: metrics.dfy ===
/**
 * The metrics engine `process_financial_data` (python.py:19-47): coerce the
 * two value columns, add a growth column, locate the first total-assets row
 * and add each row's share of that total for both periods.
 */
module Metrics {
  import opened Wrappers
  import opened Cells
  import opened Labels

  /** The pattern that identifies the total-assets line item. */
  const TotalAssets: string := "TỔNG CỘNG TÀI SẢN"

  /** Stand-in for a zero divisor in growth and share formulas. */
  const Epsilon: real := 0.000000001

  /** One uploaded line item: label, prior-year cell, current-year cell. */
  datatype RawRow = RawRow(item: Option<string>, prior: Cell, current: Cell)

  /** One processed line item: coerced values plus the three derived columns (in percent). */
  datatype Row = Row(item: Option<string>, prior: real, current: real,
                     growth: real, priorShare: real, currentShare: real)

  datatype Error = MissingTotalAssets

  function LabelsOf(raw: seq<RawRow>): (ls: seq<Option<string>>)
    ensures |ls| == |raw| && forall i :: 0 <= i < |raw| ==> ls[i] == raw[i].item
  {
    seq(|raw|, i requires 0 <= i < |raw| => raw[i].item)
  }

  /** A divisor is the value itself unless that is zero, then `Epsilon`. */
  function SafeDivisor(x: real): (d: real)
    ensures d != 0.0
    ensures x != 0.0 ==> d == x
    ensures x == 0.0 ==> d == Epsilon
  {
    if x != 0.0 then x else Epsilon
  }

  /** `v` over `d`, in percent. */
  function Percent(v: real, d: real): real
    requires d != 0.0
  {
    v / d * 100.0
  }

  /**
   * Percentage change from `prior` to `current`, over a zero-guarded base:
   * the growth times its base is a hundred times the change.
   */
  function Growth(prior: real, current: real): (g: real)
    ensures g * SafeDivisor(prior) == (current - prior) * 100.0
  {
    Percent(current - prior, SafeDivisor(prior))
  }

  /** `v` as a percentage of `total`, over a zero-guarded total: share times total is a hundred times `v`. */
  function Share(v: real, total: real): (s: real)
    ensures s * SafeDivisor(total) == v * 100.0
  {
    Percent(v, SafeDivisor(total))
  }

  /**
   * One output row from its coerced values: its growth against its own prior
   * value, and each value's share of that period's total.
   */
  function Derive(item: Option<string>, prior: real, current: real, totalPrior: real, totalCurrent: real): (o: Row)
    ensures o.item == item && o.prior == prior && o.current == current
    ensures o.growth * SafeDivisor(prior) == (current - prior) * 100.0
    ensures o.priorShare * SafeDivisor(totalPrior) == prior * 100.0
    ensures o.currentShare * SafeDivisor(totalCurrent) == current * 100.0
  {
    Row(item, prior, current, Growth(prior, current), Share(prior, totalPrior), Share(current, totalCurrent))
  }

  /** Row `k` is the first total-assets row of `raw`. */
  predicate IsFirstTotal(raw: seq<RawRow>, k: nat) {
    IsFirst(LabelsOf(raw), TotalAssets, k)
  }

  /** Every row derived against the values of row `k`, in input order. */
  function DeriveAll(raw: seq<RawRow>, k: nat): (t: seq<Row>)
    requires k < |raw|
    ensures |t| == |raw|
    ensures forall i :: 0 <= i < |raw| ==>
      t[i] == Derive(raw[i].item, Coerce(raw[i].prior), Coerce(raw[i].current), Coerce(raw[k].prior), Coerce(raw[k].current))
  {
    seq(|raw|, i requires 0 <= i < |raw| =>
      Derive(raw[i].item, Coerce(raw[i].prior), Coerce(raw[i].current), Coerce(raw[k].prior), Coerce(raw[k].current)))
  }

  /**
   * The processed table, or `MissingTotalAssets` when no label contains the
   * total-assets pattern. No partial table is returned on failure.
   */
  function Process(raw: seq<RawRow>): (r: Result<seq<Row>, Error>)
    ensures r.Failure? <==> forall i :: 0 <= i < |raw| ==> !Matches(raw[i].item, TotalAssets)
    ensures r.Failure? ==> r.error == MissingTotalAssets
    ensures r.Success? ==> |r.value| == |raw|
    ensures r.Success? ==> forall i :: 0 <= i < |raw| ==>
      && r.value[i].item == raw[i].item
      && r.value[i].prior == Coerce(raw[i].prior)
      && r.value[i].current == Coerce(raw[i].current)
      && r.value[i].growth == Growth(r.value[i].prior, r.value[i].current)
    ensures r.Success? ==> forall k: nat, i :: IsFirstTotal(raw, k) && 0 <= i < |raw| ==>
      && r.value[i].priorShare == Share(r.value[i].prior, r.value[k].prior)
      && r.value[i].currentShare == Share(r.value[i].current, r.value[k].current)
  {
    match FindFirst(LabelsOf(raw), TotalAssets)
    case None => Failure(MissingTotalAssets)
    case Some(k) =>
      var t := DeriveAll(raw, k);
      assert forall j: nat, i :: IsFirstTotal(raw, j) && 0 <= i < |raw| ==>
        && t[i].priorShare == Share(t[i].prior, t[j].prior)
        && t[i].currentShare == Share(t[i].current, t[j].current)
      by {
        forall j: nat, i | IsFirstTotal(raw, j) && 0 <= i < |raw|
          ensures t[i].priorShare == Share(t[i].prior, t[j].prior)
          ensures t[i].currentShare == Share(t[i].current, t[j].current)
        {
          FirstIsUnique(LabelsOf(raw), TotalAssets, j);
        }
      }
      Success(t)
  }

  /** The coerced values of the first total-assets row, if there is one. */
  function TotalsOf(raw: seq<RawRow>): Option<(real, real)> {
    match FindFirst(LabelsOf(raw), TotalAssets)
    case None => None
    case Some(k) => Some((Coerce(raw[k].prior), Coerce(raw[k].current)))
  }

  /** Step 1 of the dataframe code: coerce both value columns. */
  method CoerceColumns(raw: seq<RawRow>) returns (prior: seq<real>, current: seq<real>)
    ensures |prior| == |raw| && |current| == |raw|
    ensures forall j :: 0 <= j < |raw| ==> prior[j] == Coerce(raw[j].prior) && current[j] == Coerce(raw[j].current)
  {
    prior, current := [], [];
    var i := 0;
    while i < |raw|
      invariant 0 <= i <= |raw|
      invariant |prior| == i && |current| == i
      invariant forall j :: 0 <= j < i ==> prior[j] == Coerce(raw[j].prior) && current[j] == Coerce(raw[j].current)
    {
      prior := prior + [Coerce(raw[i].prior)];
      current := current + [Coerce(raw[i].current)];
      i := i + 1;
    }
  }

  /** Step 2: the growth column, with zero bases replaced by `Epsilon`. */
  method GrowthColumn(prior: seq<real>, current: seq<real>) returns (growth: seq<real>)
    requires |prior| == |current|
    ensures |growth| == |prior|
    ensures forall j :: 0 <= j < |prior| ==> growth[j] == Growth(prior[j], current[j])
  {
    growth := [];
    var i := 0;
    while i < |prior|
      invariant 0 <= i <= |prior|
      invariant |growth| == i
      invariant forall j :: 0 <= j < i ==> growth[j] == Growth(prior[j], current[j])
    {
      var base := if prior[i] != 0.0 then prior[i] else Epsilon;
      growth := growth + [Percent(current[i] - prior[i], base)];
      i := i + 1;
    }
  }

  /** Step 3: the index of the first total-assets row, or `|raw|` when there is none. */
  method FindTotal(raw: seq<RawRow>) returns (k: nat)
    ensures k <= |raw|
    ensures k < |raw| ==> IsFirstTotal(raw, k)
    ensures k == |raw| ==> forall j :: 0 <= j < |raw| ==> !Matches(raw[j].item, TotalAssets)
  {
    k := 0;
    while k < |raw| && !Matches(raw[k].item, TotalAssets)
      invariant 0 <= k <= |raw|
      invariant forall j :: 0 <= j < k ==> !Matches(raw[j].item, TotalAssets)
    {
      k := k + 1;
    }
  }

  /** Step 4: assemble the rows with both share columns against row `k`. */
  method ShareColumns(raw: seq<RawRow>, prior: seq<real>, current: seq<real>, growth: seq<real>, k: nat)
    returns (rows: seq<Row>)
    requires k < |raw| && |prior| == |raw| && |current| == |raw| && |growth| == |raw|
    requires forall j :: 0 <= j < |raw| ==> prior[j] == Coerce(raw[j].prior) && current[j] == Coerce(raw[j].current)
    requires forall j :: 0 <= j < |raw| ==> growth[j] == Growth(prior[j], current[j])
    ensures rows == DeriveAll(raw, k)
  {
    var divisorPrior := if prior[k] != 0.0 then prior[k] else Epsilon;
    var divisorCurrent := if current[k] != 0.0 then current[k] else Epsilon;
    rows := [];
    var i := 0;
    while i < |raw|
      invariant 0 <= i <= |raw|
      invariant |rows| == i
      invariant forall j :: 0 <= j < i ==> rows[j] == Derive(raw[j].item, prior[j], current[j], prior[k], current[k])
    {
      var row := Row(raw[i].item, prior[i], current[i], growth[i],
                     Percent(prior[i], divisorPrior), Percent(current[i], divisorCurrent));
      assert row == Derive(raw[i].item, prior[i], current[i], prior[k], current[k]);
      rows := rows + [row];
      i := i + 1;
    }
  }

  /**
   * Processing as the dataframe code does it, one whole column at a time:
   * coerce both value columns, add growth, find the total row, add shares.
   */
  method ProcessColumns(raw: seq<RawRow>) returns (r: Result<seq<Row>, Error>)
    ensures r == Process(raw)
  {
    var prior, current := CoerceColumns(raw);
    var growth := GrowthColumn(prior, current);
    var k := FindTotal(raw);
    if k == |raw| {
      return Failure(MissingTotalAssets);
    }
    FirstIsUnique(LabelsOf(raw), TotalAssets, k);
    var rows := ShareColumns(raw, prior, current, growth, k);
    r := Success(rows);
  }

  /** Division by the guarded base never fails: a zero base scales the change by 10^11. */
  lemma GrowthFromZero(current: real)
    ensures Growth(0.0, current) == current * 100000000000.0
  {
  }

  /** With a positive base, growth has the sign of the change. */
  lemma GrowthSign(prior: real, current: real)
    requires prior > 0.0
    ensures Growth(prior, current) > 0.0 <==> current > prior
    ensures Growth(prior, current) == 0.0 <==> current == prior
  {
    var g := Growth(prior, current);
    assert g * prior == (current - prior) * 100.0;
    if g > 0.0 { assert g * prior > 0.0; }
    if g < 0.0 { assert g * prior < 0.0; }
  }

  /** A value's share of itself is 100 when it is nonzero and 0 otherwise. */
  lemma ShareOfSelf(t: real)
    ensures Share(t, t) == if t != 0.0 then 100.0 else 0.0
  {
    if t != 0.0 {
      assert t / t == 1.0;
      assert Percent(t, t) == 100.0;
    }
  }

  /** The first total-assets row is 100% of itself in each period whose value is nonzero. */
  lemma TotalRowShare(raw: seq<RawRow>, k: nat)
    requires IsFirstTotal(raw, k)
    ensures Process(raw).Success?
    ensures var t := Process(raw).value[k];
      && t.priorShare == (if t.prior != 0.0 then 100.0 else 0.0)
      && t.currentShare == (if t.current != 0.0 then 100.0 else 0.0)
  {
    var t := Process(raw).value[k];
    ShareOfSelf(t.prior);
    ShareOfSelf(t.current);
  }

  /**
   * No row depends on another: two tables with the same totals give equal
   * output rows for equal input rows, wherever those rows stand.
   */
  lemma RowLocality(a: seq<RawRow>, b: seq<RawRow>, i: nat, j: nat)
    requires i < |a| && j < |b| && a[i] == b[j]
    requires TotalsOf(a).Some? && TotalsOf(a) == TotalsOf(b)
    ensures Process(a).Success? && Process(b).Success?
    ensures Process(a).value[i] == Process(b).value[j]
  {
  }

  lemma LabelsOfAppend(raw: seq<RawRow>, more: seq<RawRow>)
    ensures LabelsOf(raw + more) == LabelsOf(raw) + LabelsOf(more)
  {
  }

  lemma ProcessFound(raw: seq<RawRow>, k: nat)
    requires FindFirst(LabelsOf(raw), TotalAssets) == Some(k)
    ensures Process(raw) == Success(DeriveAll(raw, k))
  {
  }

  lemma DeriveAllPrefix(raw: seq<RawRow>, more: seq<RawRow>, k: nat)
    requires k < |raw|
    ensures DeriveAll(raw + more, k)[..|raw|] == DeriveAll(raw, k)
  {
    var all := raw + more;
    var long, short := DeriveAll(all, k), DeriveAll(raw, k);
    forall i | 0 <= i < |raw| ensures long[i] == short[i] {
      assert all[i] == raw[i] && all[k] == raw[k];
    }
  }

  /** Rows appended after a table that already has a total row leave its processed rows unchanged. */
  lemma ProcessAppend(raw: seq<RawRow>, more: seq<RawRow>)
    requires Process(raw).Success?
    ensures Process(raw + more).Success?
    ensures Process(raw + more).value[..|raw|] == Process(raw).value
  {
    LabelsOfAppend(raw, more);
    FindFirstAppend(LabelsOf(raw), LabelsOf(more), TotalAssets);
    var k := FindFirst(LabelsOf(raw), TotalAssets).value;
    ProcessFound(raw, k);
    ProcessFound(raw + more, k);
    DeriveAllPrefix(raw, more, k);
  }
}

=== FILE: scenarios.dfy ===
/**
 * Worked examples on concrete statements: a three-line balance sheet, a
 * case-insensitive lookup, and the two inputs behind the findings.
 */
module Scenarios {
  import opened Wrappers
  import opened Cells
  import opened Labels
  import opened Metrics
  import opened Liquidity
  import opened Chat
  import opened App

  /** Total assets 1000 -> 1200, current assets 400 -> 600, current liabilities 200 -> 300. */
  const Sample: seq<RawRow> := [
    RawRow(Some(TotalAssets), Number(1000.0), Number(1200.0)),
    RawRow(Some(CurrentAssets), Number(400.0), Number(600.0)),
    RawRow(Some(CurrentLiabilities), Number(200.0), Number(300.0))
  ]

  lemma SelfMatch(s: string)
    ensures Matches(Some(s), s)
  {
  }

  /** The total-assets line does not contain the current-assets pattern. */
  lemma TotalIsNotCurrentAssets()
    ensures !Matches(Some(TotalAssets), CurrentAssets)
  {
    assert CurrentAssets[10] == 'Ắ';
    MissingCharNoMatch(TotalAssets, CurrentAssets, 'Ắ');
  }

  /** The total-assets line does not contain the current-liabilities pattern. */
  lemma TotalIsNotLiabilities()
    ensures !Matches(Some(TotalAssets), CurrentLiabilities)
  {
    assert CurrentLiabilities[5] == 'Ắ';
    MissingCharNoMatch(TotalAssets, CurrentLiabilities, 'Ắ');
  }

  /** The current-assets line does not contain the current-liabilities pattern. */
  lemma AssetsAreNotLiabilities()
    ensures !Matches(Some(CurrentAssets), CurrentLiabilities)
  {
    assert CurrentLiabilities[1] == 'Ợ';
    MissingCharNoMatch(CurrentAssets, CurrentLiabilities, 'Ợ');
  }

  lemma TotalIsNotCurrent()
    ensures !Matches(Some(TotalAssets), CurrentAssets)
    ensures !Matches(Some(TotalAssets), CurrentLiabilities)
    ensures !Matches(Some(CurrentAssets), CurrentLiabilities)
  {
    TotalIsNotCurrentAssets();
    TotalIsNotLiabilities();
    AssetsAreNotLiabilities();
  }

  /** Lookups ignore case and match inside a longer label. */
  lemma LowerCaseLabelMatches()
    ensures Matches(Some("Tổng tài sản ngắn hạn"), CurrentAssets)
  {
    MatchesAt("Tổng tài sản ngắn hạn", CurrentAssets, 5);
  }

  /** In the sample's labels, each pattern is first found on its own line. */
  lemma SampleLookups(ls: seq<Option<string>>)
    requires ls == [Some(TotalAssets), Some(CurrentAssets), Some(CurrentLiabilities)]
    ensures IsFirst(ls, TotalAssets, 0)
    ensures IsFirst(ls, CurrentAssets, 1)
    ensures IsFirst(ls, CurrentLiabilities, 2)
  {
    SelfMatch(TotalAssets);
    SelfMatch(CurrentAssets);
    SelfMatch(CurrentLiabilities);
    TotalIsNotCurrent();
  }

  /** The sample's figures: growth 50%, shares 50% and 100%, ratio 2 in both years. */
  lemma SampleArithmetic()
    ensures Growth(400.0, 600.0) == 50.0
    ensures Share(600.0, 1200.0) == 50.0
    ensures Share(1000.0, 1000.0) == 100.0
    ensures CurrentRatio(400.0, 200.0) == Value(2.0) && CurrentRatio(600.0, 300.0) == Value(2.0)
  {
    ShareOfSelf(1000.0);
  }

  /** The sample has a total-assets line, so it is processed. */
  lemma SampleProcesses()
    ensures IsFirstTotal(Sample, 0) && Process(Sample).Success?
    ensures IsFirst(LabelsOf(Sample), CurrentAssets, 1)
    ensures IsFirst(LabelsOf(Sample), CurrentLiabilities, 2)
  {
    SampleLookups(LabelsOf(Sample));
  }

  /** Current assets grew 50%, are half of total assets now, and the current ratio is 2 in both years. */
  lemma SampleMetrics()
    ensures Process(Sample).Success?
    ensures Process(Sample).value[1].growth == 50.0
    ensures Process(Sample).value[1].currentShare == 50.0
    ensures Process(Sample).value[0].priorShare == 100.0
    ensures LiquidityOf(Process(Sample).value) == Liquidity(Value(2.0), Value(2.0))
  {
    SampleProcesses();
    SampleArithmetic();
    var t := Process(Sample).value;
    assert RowLabels(t) == LabelsOf(Sample);
    assert t[1].growth == Growth(400.0, 600.0);
    assert t[1].currentShare == Share(600.0, 1200.0);
    assert t[0].priorShare == Share(1000.0, 1000.0);
  }

  /** A sheet holding only the total-assets line: the input of the first finding. */
  const TotalOnly: seq<RawRow> := [RawRow(Some(TotalAssets), Number(1000.0), Number(1200.0))]

  /** As written the sheet fails and drops the conversation; corrected it is shown with "N/A" figures. */
  lemma TotalOnlyScenario(st: ChatState, p: Provider, markdown: seq<Row> -> string)
    ensures RunAsWritten(st, Sheet(TotalOnly), None, None, p, markdown).screen == Failed(ProcessingError)
    ensures RunAsWritten(st, Sheet(TotalOnly), None, None, p, markdown).state.messages.None?
    ensures Run(st, Sheet(TotalOnly), None, None, p, markdown).screen.Shown?
    ensures Run(st, Sheet(TotalOnly), None, None, p, markdown).screen.liquidity == Liquidity(NotAvailable, NotAvailable)
  {
    SelfMatch(TotalAssets);
    TotalIsNotCurrent();
    assert IsFirstTotal(TotalOnly, 0);
    MissingCurrentAssetsFailsAsWritten(st, TotalOnly, None, None, p, markdown);
    MissingCurrentAssetsIsShown(st, TotalOnly, None, None, p, markdown);
  }

  /** A conversation about document "A" with one answered question. */
  const AfterFileA: ChatState := ChatState(
    Some([Message(Assistant, Welcome), Message(User, "q"), Message(Assistant, "a")]),
    Some(Client("key")),
    Some(Session(ModelName, Instruction, [ChatPrompt("A", "q")])),
    Some("A"))

  /** File B: the sample sheet, whose grounding document is "B". */
  function MarkdownB(t: seq<Row>): string {
    "B"
  }

  /**
   * The input of the second finding, as written: file B replaces file A and
   * the earlier exchange and the session's context about A stay.
   */
  lemma ReplaceFileAsWritten(p: Provider)
    ensures var s := RunAsWritten(AfterFileA, Sheet(Sample), Some("q2"), Some("key"), p, MarkdownB);
      && s.state.messages.Some? && AfterFileA.messages.value <= s.state.messages.value
      && s.state.session.Some? && ChatPrompt("A", "q") in s.state.session.value.sent
  {
    SampleProcesses();
    NewDocumentKeepsHistoryAsWritten(AfterFileA, Sample, Some("q2"), Some("key"), p, MarkdownB);
    var s := RunAsWritten(AfterFileA, Sheet(Sample), Some("q2"), Some("key"), p, MarkdownB);
    assert AfterFileA.session.value.sent[0] == s.state.session.value.sent[0];
  }

  /** The same input, corrected: the log restarts and the session knows nothing of A. */
  lemma ReplaceFileCorrected(p: Provider)
    ensures var s := Run(AfterFileA, Sheet(Sample), Some("q2"), Some("key"), p, MarkdownB);
      && s.state.messages.Some? && |s.state.messages.value| == 3
      && (s.state.session.Some? ==> ChatPrompt("A", "q") !in s.state.session.value.sent)
  {
    SampleProcesses();
    NewDocumentStartsOver(AfterFileA, Sample, "q2", Some("key"), p, MarkdownB);
    PromptDocumentDiffers();
  }

  lemma PromptDocumentDiffers()
    ensures ChatPrompt("A", "q") != ChatPrompt("B", "q2")
  {
    assert ChatPrompt("A", "q")[|PromptHeader|] == 'A';
    assert ChatPrompt("B", "q2")[|PromptHeader|] == 'B';
  }
}

=== FILE: wrappers.dfy ===
/** Failure-carrying datatypes shared by the other modules. */
module Wrappers {

  /** A value that may be absent: a missing cell, label, secret or session-state entry. */
  datatype Option<+T> = None | Some(value: T)

  /** The outcome of an operation that can fail with an error of type `E`. */
  datatype Result<+T, +E> = Success(value: T) | Failure(error: E)
}
